=== FILE: README.md ===
# Heat map chart (dc.js `dc.heatMap`) in Dafny

This project models the core of dc.js's heat map chart, `src/heatmap.js`. The heat map
draws one rectangle per datum of a crossfilter group, on a grid. The grid's columns are
the distinct values of `d.key[0]`, and its rows the distinct values of the value
accessor. The model fixes that accessor to `d.key[1]` (see "## Left out"). The
chart keeps a filter set of (column, row) pairs in its base chart, and after each change
asks every chart of its group to redraw.

The model has six modules:

- `Categories` (`categories.dfy`) holds the values: a category (an `int`), the pair
  `Coord(col, row)` that is both a datum's key and a two-dimensional filter, and the
  datum.
- `AxisDomain` (`axis_domain.dfy`) derives an axis domain the way `rows()`/`cols()` do.
  The values are projected, sorted with `d3.ascending`, and filtered with `uniq`. The
  derivation is pure, so it is modelled as functions.
- `FilterRules` (`filter_rules.dfy`) holds, as functions on the filter set:
  - the toggle behind the `filter` override;
  - the "select the missing ones, or clear all" rule of a label click.
- `Grid` (`grid.dfy`) holds what one `doRedraw` computes, as functions:
  - the cell size;
  - the band each value falls in, with rows laid over the range `[height, 0]`;
  - the keyed enter/update/exit over the cell table;
  - the index-keyed label join;
  - the selection pass.
- `HeatMapChart` (`heatmap.dfy`) is the chart object itself, a `class HeatMap`.
  - Its closure fields (`_rows`, `_cols`, `_xBorderRadius`, `_yBorderRadius`) are
    updated in place by the setters.
  - The rendered cells are a table keyed by the composite key. The axis labels are two
    lists. The methods of `doRedraw` update both in place, loop by loop.
  - The click handlers mutate an injected `SharedFilter`. This object stands for the
    filter set the chart's base chart keeps (`_filter`, `hasFilter`) and for the
    group's `redrawAll`. A ghost log of its requests states that every
    gesture makes exactly one redraw request, after all of its toggles.
- `HeatMapScenario` (`scenario.dfy`) works through a three-datum example: its domains,
  its cells, and a cell click followed by two row-label clicks.

The methods that do the work of the chart are proved against a specification
function of `Grid` or `FilterRules`, and the properties are then proved about those
functions. These are the click handlers, the steps of `doRedraw`, and `doRender`. The setters
(`SetRows`, `SetCols`, `XBorderRadius`, `YBorderRadius`) and `resetSvg` store fields,
and their contracts state the new field values directly. So does `SetData`,
which stands for the crossfilter group changing under the chart.

## Model

| member | source | states |
|---|---|---|
| `Categories.DataKeys` | src/heatmap.js:133-135 | every datum's composite key, `key[0]` and the value paired, is among the keys the cell join is keyed by |
| `Categories.DataKeysCount` | src/heatmap.js:133-135 | with distinct keys there is exactly one bind key per datum, so a join has one cell per datum |
| `AxisDomain.Insert` | src/heatmap.js:96 | inserting into an ascending list keeps it ascending and adds exactly that one element (multiset) |
| `AxisDomain.SortAscending` | src/heatmap.js:96 | `values.sort(d3.ascending)` returns an ascending permutation of its input |
| `AxisDomain.Uniq` | src/heatmap.js:85-87 | `uniq(d, i, a)` keeps the first element. On an ascending list it keeps a later element exactly when it is greater than its predecessor |
| `AxisDomain.KeepUniq` | src/heatmap.js:85-87 | `filter(uniq)` keeps exactly the same set of values, never lengthens the list, and keeps the last element |
| `AxisDomain.KeepUniqStrict` | src/heatmap.js:85-87 | on ascending input, `filter(uniq)` leaves a strictly ascending list, with no duplicates at all |
| `AxisDomain.DeriveDomain` | src/heatmap.js:95-97 | the derived domain is strictly ascending, holds exactly the projected values, and is empty exactly when the data is empty |
| `AxisDomain.DeriveDomainIsCanonical` | src/heatmap.js:95-97 | the derived domain is the unique strictly ascending list of those values |
| `AxisDomain.DomainLength` | src/heatmap.js:125-126 | the row or column count equals the number of distinct values on that axis |
| `AxisDomain.RowValues` | src/heatmap.js:95 | the row projection has one value per datum, in data order: the datum's row |
| `AxisDomain.ColValues` | src/heatmap.js:106 | the column projection has one value per datum, in data order: the datum's column |
| `AxisDomain.IndexOf` | src/heatmap.js:148-149 | the ordinal lookup returns the first index of a value in the domain, and the domain's length exactly when the value is absent |
| `FilterRules.CoordOn` | src/heatmap.js:78-79 | `d.key[axis]` (also read at line 50): a column click reads `key[0]` and a row click reads `key[1]` |
| `FilterRules.OnAxis` | src/heatmap.js:49-51 | `cellsOnAxis` holds exactly the rendered cells whose key has the clicked value on that axis |
| `FilterRules.AxisTargets` | src/heatmap.js:52-63 | the pairs a label click toggles all lie on the axis and share one filtered state. They are the unfiltered cells on it when there are any, and all of its cells when every cell on it is filtered |
| `FilterRules.ToggleEach` | src/heatmap.js:57-63 | toggling each target once flips the membership of exactly the targets |
| `FilterRules.Toggle` | src/heatmap.js:69-76 | the filter override flips the membership of the given pair and of no other pair |
| `FilterRules.ToggleTwice` | src/heatmap.js:40-46 | clicking the same cell twice restores the filter set |
| `FilterRules.AxisClick` | src/heatmap.js:48-66 | a fully filtered column or row loses all of its rendered cells from the set, and any other one gains all of them; pairs off the axis value, and pairs not rendered, keep their membership |
| `FilterRules.AxisClickAllOrNothing` | src/heatmap.js:56-63 | after a label click, a column or row is either entirely filtered or entirely unfiltered |
| `FilterRules.AxisClickTwice` | src/heatmap.js:48-66 | two clicks on the same column or row, for any value, restore a fully filtered one (an empty one included), and leave none of the cells of any other one filtered |
| `Grid.CellSize` | src/heatmap.js:127-128 | the cell size is `floor(extent / count)`: the largest n with `n * count <= extent`; for a count of zero it is the non-finite value |
| `Grid.ColBand` | src/heatmap.js:130 | the column scale spans `[0, width]` with one band per column, and a value's band index points at that value exactly when it is a column |
| `Grid.RowBand` | src/heatmap.js:131 | the row scale spans `[height, 0]` with one band per row, and a value's band index points at that value exactly when it is a row |
| `Grid.BoxWidth` | src/heatmap.js:127 | `boxWidth` is the floor of the width over the column count, and the non-finite value when there are no columns |
| `Grid.BoxHeight` | src/heatmap.js:128 | `boxHeight` is the floor of the height over the row count, and the non-finite value when there are no rows |
| `Grid.Placement` | src/heatmap.js:147-154 | a cell is placed at the start of the column band of its key's column and of the row band of its key's row, which point at those values whenever they are in the domains. It carries the configured radii and the size `boxWidth` by `boxHeight`, a pixel size exactly when the matching axis has at least one value |
| `Grid.Joined` | src/heatmap.js:133-145 | the join rebinds a datum's existing cell to it and changes nothing else of that cell. A datum without a cell gets a white, unplaced cell titled with its metric |
| `Grid.JoinAll` | src/heatmap.js:133-145 | the joined table's keys are the prior keys plus the data's keys |
| `Grid.Updated` | src/heatmap.js:147-154 | the update keeps a cell's datum, title and mark, fills it from the datum's metric, and places it at its key |
| `Grid.UpdateAll` | src/heatmap.js:147-154 | the update changes the cells of the data's keys, each to its updated form, and leaves every other cell and every key as it was |
| `Grid.ExitAll` | src/heatmap.js:156 | the exit keeps exactly the cells whose key is in the data, unchanged |
| `Grid.MarkFor` | src/heatmap.js:182-194 | a key is marked selected exactly when it is filtered, deselected exactly when a filter is active and it is not filtered, and neutral exactly when no filter is active |
| `Grid.Marked` | src/heatmap.js:182-194 | the selection pass changes only a cell's mark, to the mark of its key |
| `Grid.MarkAll` | src/heatmap.js:182-194 | the selection pass keeps every key and marks each cell for the filter set |
| `Grid.Redrawn` | src/heatmap.js:133-194 | after a redraw, every rendered key belongs to the data and every cell carries the mark of its key |
| `Grid.NewLabel` | src/heatmap.js:161-180 | a new column label shows its value at the middle of the value's band, at the bottom edge. A new row label shows its value at the middle of the value's band, at x = 0 |
| `Grid.Entered` | src/heatmap.js:136-145 | a new cell is white and bound to its datum |
| `Grid.JoinAllEntries` | src/heatmap.js:133-145 | after the join, the table's keys are the prior keys plus the data's keys. Each datum's entry is its prior cell rebound to it, or a new cell. A prior cell of departed data is untouched |
| `Grid.JoinAllNext` | src/heatmap.js:133-135 | joining one more datum rebinds the cell the prior table held for it, and no cell an earlier datum produced |
| `Grid.JoinEntersWhite` | src/heatmap.js:136-141 | a cell entered by the join is white, bound to its own key, and unplaced until the update |
| `Grid.JoinAllKeyed` | src/heatmap.js:133-135 | the join keeps every cell keyed by its own datum's key |
| `Grid.Relabel` | src/heatmap.js:158-180 | the label list grows to `max(old length, domain length)`. Existing labels keep their text and position. Every label at an index of the domain is bound to the domain value at that index, and existing labels past the domain's end are unchanged, their bound value included. New labels are appended only past the old end, each a new label of its domain value |
| `Grid.RedrawnKeys` | src/heatmap.js:133-156 | after a redraw, the rendered keys are exactly the data's composite keys |
| `Grid.RedrawnAt` | src/heatmap.js:133-156 | after a redraw, each datum's cell is its joined, updated and marked cell |
| `Grid.RedrawnCell` | src/heatmap.js:136-154 | each datum's cell is bound to it and coloured from it. It sits at the column band and the row band of its key, with the configured radii and the floor-divided size. An existing cell keeps its title, and a new one gets the default title. Its mark follows the filter set |
| `Grid.RedrawnKeyed` | src/heatmap.js:133-156 | every cell of a redrawn table is bound to a datum with its own key |
| `Grid.SettledFixpoint` | src/heatmap.js:133-156 | a redraw leaves a settled table unchanged |
| `Grid.RedrawnSettled` | src/heatmap.js:133-156 | a redrawn table is settled |
| `Grid.RedrawIdempotent` | src/heatmap.js:133-156 | a second redraw with the same data, layout and filters enters nothing, removes nothing and changes no cell |
| `Grid.LabelsFromScratch` | src/heatmap.js:158-180 | labels joined onto an empty list show the domain in order, and each is bound to the value it shows |
| `Grid.RelabelInSync` | src/heatmap.js:158-180 | labels whose bound value equals their text stay that way exactly when the new domain shows the old texts at their old indices |
| `Grid.RelabelStable` | src/heatmap.js:158-180 | re-joining the same domain changes no label |
| `HeatMapChart.SharedFilter.HasFilter` | src/heatmap.js:211-213 | `hasFilter(f)`, also used at line 53, holds exactly when that pair is in the filter set, and then some filter is active |
| `HeatMapChart.SharedFilter.HasAnyFilter` | src/heatmap.js:182 | `hasFilter()` holds exactly when the filter set is non-empty; with none active, no pair is filtered |
| `HeatMapChart.SharedFilter.ToggleFilter` | src/heatmap.js:71 | `_filter` of a two-dimensional filter toggles that pair, and records the toggle |
| `HeatMapChart.SharedFilter.RedrawAll` | src/heatmap.js:44 | `redrawAll` leaves the filter set as it is, and records one redraw request against it |
| `HeatMapChart.HeatMap.constructor` | src/heatmap.js:27-38 | a new chart has no overrides, so none with repeats, and the default radius 6.75 on both axes. It renders no cells and no labels |
| `HeatMapChart.HeatMap.Rows` | src/heatmap.js:89-98 | with an override set, `rows()` returns it unchanged. Otherwise the result is strictly ascending and holds exactly the rows of the data |
| `HeatMapChart.HeatMap.Cols` | src/heatmap.js:100-109 | with an override set, `cols()` returns it unchanged. Otherwise the result is strictly ascending and holds exactly the columns of the data |
| `HeatMapChart.HeatMap.SetRows` | src/heatmap.js:90-93 | `rows(x)` takes a list without repeats, as an ordinal domain is. It stores the override, after which `rows()` returns it, and returns the chart |
| `HeatMapChart.HeatMap.SetCols` | src/heatmap.js:101-104 | `cols(x)` takes a list without repeats, as an ordinal domain is. It stores the override, after which `cols()` returns it, and returns the chart |
| `HeatMapChart.HeatMap.XBorderRadius` | src/heatmap.js:197-202 | with an argument, stores it. Either way, returns the radius now in effect |
| `HeatMapChart.HeatMap.YBorderRadius` | src/heatmap.js:204-209 | with an argument, stores it. Either way, returns the radius now in effect |
| `HeatMapChart.HeatMap.Filter` | src/heatmap.js:69-76 | with a pair, toggles it in the shared set. Without one, changes nothing |
| `HeatMapChart.HeatMap.IsSelectedNode` | src/heatmap.js:211-213 | a datum is selected exactly when its pair is in the filter set |
| `HeatMapChart.HeatMap.BoxOnClick` | src/heatmap.js:40-46 | a cell click toggles exactly its own pair, then makes one redraw request after the toggle |
| `HeatMapChart.HeatMap.FilterAxis` | src/heatmap.js:48-66 | the new filter set is `AxisClick` over the rendered cells and the set before the click. The log holds one toggle per target pair, with targets chosen before the first toggle, followed by exactly one redraw request |
| `HeatMapChart.HeatMap.FilterEach` | src/heatmap.js:57-63 | the `.each` loop toggles every target pair exactly once, whatever the order, and logs one toggle per pair |
| `HeatMapChart.HeatMap.XAxisOnClick` | src/heatmap.js:78 | a column-label click is `filterAxis` on `key[0]` |
| `HeatMapChart.HeatMap.YAxisOnClick` | src/heatmap.js:79 | a row-label click is `filterAxis` on `key[1]` |
| `HeatMapChart.HeatMap.CurrentLayout` | src/heatmap.js:123-128 | the layout of a redraw takes the current `cols()` and `rows()`, the effective size and the configured radii. Neither axis repeats a value while the overrides do not |
| `HeatMapChart.HeatMap.Join` | src/heatmap.js:133-145 | the data join leaves the table at `JoinAll` of the old table. Its keys become the old keys plus the data's keys, the entered keys are the data's keys that had no cell, and every entered cell is white |
| `HeatMapChart.HeatMap.Update` | src/heatmap.js:147-154 | every datum's cell gets its position, radii, fill and size, and no other cell changes |
| `HeatMapChart.HeatMap.Exit` | src/heatmap.js:156 | the cells whose key is not in the data are removed, and they are exactly the ones reported as exited |
| `HeatMapChart.HeatMap.Reconcile` | src/heatmap.js:133-156 | the enter, update and exit passes leave the table at `ExitAll(UpdateAll(JoinAll(old table)))`. The entered keys are the data's keys that had no cell, and the exited keys are the old keys not in the data |
| `HeatMapChart.HeatMap.JoinLabels` | src/heatmap.js:158-180 | one axis's label join, run on the list in place, yields `Relabel` of it |
| `HeatMapChart.HeatMap.AppendLabels` | src/heatmap.js:158-180 | the column and row label joins leave both lists at `Relabel` of the old ones |
| `HeatMapChart.HeatMap.SelectionPass` | src/heatmap.js:182-194 | with no filter active, every cell is reset. Otherwise a cell is marked selected exactly when its pair is filtered, and deselected otherwise |
| `HeatMapChart.HeatMap.DoRedraw` | src/heatmap.js:122-195 | the table becomes `Redrawn` of the old table under the layout derived before the redraw. Both label lists become `Relabel` of the old ones. Entered and exited keys are the data's keys minus the old keys, and the old keys minus the data's keys |
| `HeatMapChart.HeatMap.ResetSvg` | src/heatmap.js:112 | resetting the drawing surface leaves no cells and no labels |
| `HeatMapChart.HeatMap.DoRender` | src/heatmap.js:111-120 | a render is a redraw from an empty table and empty label lists, so every datum's key is entered |
| `HeatMapScenario.SampleCols` | src/heatmap.js:100-109 | for data keyed (a,x), (b,x), (a,y), the column domain is [a, b] |
| `HeatMapScenario.SampleRows` | src/heatmap.js:89-98 | for the same data, the row domain is [x, y] |
| `HeatMapScenario.SampleKeys` | src/heatmap.js:133-135 | the sample's bind keys are distinct and are exactly the three pairs (a,x), (b,x), (a,y) |
| `HeatMapScenario.SampleCells` | src/heatmap.js:133-156 | for the same data, a redraw renders exactly the three cells (a,x), (b,x), (a,y) |
| `HeatMapScenario.SampleClicks` | src/heatmap.js:40-66 | clicking (a,x) filters it. A click on row x then toggles only (b,x), leaving both filtered. A further click on row x clears both |

## Left out

- The drawing surface is not modelled:
  - SVG element creation, the `translate` string, and the `dy`/`dx`/`text-anchor`
    styling;
  - the chart body handle, which `doRender` creates after `resetSvg`.
- The effect of `highlightSelected`, `fadeDeselected` and `resetHighlight` is reduced
  to a mark on the cell.
- d3's `rangeRoundBands` is not modelled. A position is the symbolic band (index in
  the domain, count, range), and rows record the range `[height, 0]`. The pixel
  arithmetic of the band scale is not modelled.
- Ordinal-scale lookup of a value not in an override's domain (which extends d3's
  domain implicitly) is not modelled. The model gives such a value the index past the
  end.
- An override is taken to be the domain list of the scale it stands for. A falsy
  override is `None`.
- An override is taken to be without repeats, as the domain of a d3 ordinal scale
  always is. `SetRows` and `SetCols` require this. A list with repeats, which d3
  would collapse, is not modelled.
- Transitions (`dc.transition`, `transitionDuration`) are not modelled. `Update`
  states the end state of the transition.
- Colour resolution (`getColor`, `colorAccessor`) is not modelled: a fill is
  `Colour(metric)`, an opaque value standing for the resolved colour.
- The title function is fixed to its default, the colour metric (src/heatmap.js:38).
  The code takes the colour accessor in effect at construction. A later
  `colorAccessor(f)` changes the fill but not the title. The model assumes the
  accessor is never replaced.
- The value accessor is fixed to `d.key[1]`, the setting under which the row domain,
  the bind key and the row-label click agree. The composite key
  `key + '\0' + value` is then the pair itself, so keys containing `'\0'` do not
  arise.
- Duplicate composite keys in the data are not modelled. `DistinctKeys` is required,
  so d3's behaviour on duplicates is left out.
- `FilterEach`: the order in which `.each` visits the targets is not modelled. A set
  is toggled one element at a time in an unspecified order, which gives the same
  final set.
- `Filter` without a pair models the base chart's getter as a no-op on the filter
  set. The value the getter returns is not modelled.
- `dc.events.trigger` scheduling, and the propagation of `redrawAll` to the other
  charts of the group, are not modelled. A redraw is one logged request carrying the
  filter set it was made against.
- `_mandatoryAttributes` validation, `anchor`, margins, and the keyAccessor setup are
  not modelled. They belong to the base chart.
- The effective width and height are fixed per chart, as integer constants. The cell
  size is unaffected, since the floor of `W / C` equals the floor of `floor(W) / C`, but
  a fractional width or height is lost from the band ranges and the column labels' `y`.
- Categories are integers. JavaScript's loose `==`/`!=` over mixed types, and
  comparisons of non-primitive categories, are not modelled.
- The radius setters `XBorderRadius`/`YBorderRadius` return the radius in effect,
  not the chart, because the code's `xBorderRadius(d)` returns `_xBorderRadius` in
  both cases.
- The real-valued radius 6.75 is kept as a `real`. No floating-point rounding is
  modelled.

=== FILE: axis_domain.dfy ===
/**
 Derivation of an axis domain (heatmap.js:85-109): project every datum onto the axis,
 sort ascending, and keep an element only when it differs from its predecessor.
 */
module AxisDomain {
  import opened Categories

  ghost predicate Ascending(s: seq<Category>)
  {
    forall i, j :: 0 <= i < j < |s| ==> s[i] <= s[j]
  }

  ghost predicate StrictlyAscending(s: seq<Category>)
  {
    forall i, j :: 0 <= i < j < |s| ==> s[i] < s[j]
  }

  /** Inserts `x` into an ascending sequence. */
  function Insert(x: Category, s: seq<Category>): (r: seq<Category>)
    requires Ascending(s)
    ensures Ascending(r)
    ensures multiset(r) == multiset(s) + multiset{x}
    ensures forall y :: y in r ==> y == x || y in s
  {
    if s == [] || x <= s[0] then [x] + s
    else
      var rest := Insert(x, s[1..]);
      assert forall j :: 0 <= j < |rest| ==> s[0] <= rest[j] by {
        forall j | 0 <= j < |rest| ensures s[0] <= rest[j] {
          assert rest[j] in rest;
        }
      }
      assert s == [s[0]] + s[1..];
      [s[0]] + rest
  }

  /** `values.sort(d3.ascending)`: an ascending permutation of the input. */
  function SortAscending(s: seq<Category>): (r: seq<Category>)
    ensures Ascending(r)
    ensures multiset(r) == multiset(s)
  {
    if s == [] then []
    else
      assert s == [s[0]] + s[1..];
      Insert(s[0], SortAscending(s[1..]))
  }

  /** The predicate `uniq(d, i, a)`: `!i || a[i-1] != d`. On sorted input it keeps the
      first element and every element greater than its predecessor. */
  predicate Uniq(s: seq<Category>, i: nat): (r: bool)
    requires i < |s|
    ensures i == 0 ==> r
    ensures 0 < i && Ascending(s) ==> (r <==> s[i - 1] < s[i])
  {
    i == 0 || s[i - 1] != s[i]
  }

  /** `a.filter(uniq)`: keeps every element that differs from its predecessor. */
  function KeepUniq(s: seq<Category>): (r: seq<Category>)
    ensures forall x :: x in r <==> x in s
    ensures |r| <= |s|
    ensures |s| > 0 ==> |r| > 0 && r[|r| - 1] == s[|s| - 1]
    decreases |s|
  {
    if |s| == 0 then []
    else
      var n := |s| - 1;
      var front := KeepUniq(s[..n]);
      assert forall x :: x in s <==> x in s[..n] || x == s[n] by {
        assert s == s[..n] + [s[n]];
      }
      assert n > 0 ==> s[n - 1] in s[..n];
      if Uniq(s, n) then front + [s[n]] else front
  }

  /** On sorted input, dropping repeated neighbours leaves no duplicates at all. */
  lemma {:induction false} KeepUniqStrict(s: seq<Category>)
    requires Ascending(s)
    ensures StrictlyAscending(KeepUniq(s))
    decreases |s|
  {
    if |s| > 0 {
      var n := |s| - 1;
      var front := KeepUniq(s[..n]);
      KeepUniqStrict(s[..n]);
      if Uniq(s, n) {
        forall x | x in front ensures x < s[n] {
          assert x in s[..n];
          var j :| 0 <= j < n && s[..n][j] == x;
          assert s[j] <= s[n - 1];
        }
        var r := front + [s[n]];
        forall i, j | 0 <= i < j < |r| ensures r[i] < r[j] {
          if j < |front| {
          } else {
            assert r[i] in front;
          }
        }
      }
    }
  }

  /** The domain the no-argument `rows()`/`cols()` build when no override is set. */
  function DeriveDomain(values: seq<Category>): (r: seq<Category>)
    ensures StrictlyAscending(r)
    ensures forall x :: x in r <==> x in values
    ensures |r| == 0 <==> |values| == 0
  {
    var sorted := SortAscending(values);
    assert forall x :: x in sorted <==> x in values by {
      forall x ensures x in sorted <==> x in values {
        assert x in sorted <==> x in multiset(sorted);
      }
    }
    KeepUniqStrict(sorted);
    KeepUniq(sorted)
  }

  /** `data.map(valueAccessor)`, the value accessor being `d.key[1]`. */
  function RowValues(data: seq<Datum>): (r: seq<Category>)
    ensures |r| == |data|
    ensures forall i :: 0 <= i < |data| ==> r[i] == data[i].key.row
  {
    seq(|data|, i requires 0 <= i < |data| => data[i].key.row)
  }

  /** `data.map(keyAccessor)`, the key accessor being `d.key[0]`. */
  function ColValues(data: seq<Datum>): (r: seq<Category>)
    ensures |r| == |data|
    ensures forall i :: 0 <= i < |data| ==> r[i] == data[i].key.col
  {
    seq(|data|, i requires 0 <= i < |data| => data[i].key.col)
  }

  /** The position of `x` in an ordinal domain, `|s|` when it is absent. */
  function IndexOf(s: seq<Category>, x: Category): (r: nat)
    ensures r <= |s|
    ensures r < |s| <==> x in s
    ensures r < |s| ==> s[r] == x && x !in s[..r]
  {
    if s == [] then 0
    else if s[0] == x then 0
    else
      var k := IndexOf(s[1..], x);
      assert s[..k + 1] == [s[0]] + s[1..][..k];
      1 + k
  }

  /** A strictly ascending sequence is determined by its elements. */
  lemma {:induction false} AscendingByElements(a: seq<Category>, b: seq<Category>)
    requires StrictlyAscending(a) && StrictlyAscending(b)
    requires forall x :: x in a <==> x in b
    ensures a == b
  {
    if a == [] {
      assert forall i :: 0 <= i < |b| ==> b[i] in a;
    } else {
      assert a[0] in a;
      assert b != [] by { assert a[0] in b; }
      assert b[0] in b;
      assert a[0] == b[0];
      forall x ensures x in a[1..] <==> x in b[1..] {
        if x in a[1..] {
          assert x in a && x != a[0];
        }
        if x in b[1..] {
          assert x in b && x != b[0];
        }
      }
      AscendingByElements(a[1..], b[1..]);
      assert a == [a[0]] + a[1..];
      assert b == [b[0]] + b[1..];
    }
  }

  /** The derived domain is THE sorted list of distinct values: any strictly ascending
      sequence holding exactly the data's values is equal to it. */
  lemma DeriveDomainIsCanonical(values: seq<Category>, d: seq<Category>)
    requires StrictlyAscending(d)
    requires forall x :: x in d <==> x in values
    ensures DeriveDomain(values) == d
  {
    AscendingByElements(DeriveDomain(values), d);
  }

  /** A strictly ascending sequence has as many elements as distinct values. */
  lemma {:induction false} StrictlyAscendingCard(s: seq<Category>)
    requires StrictlyAscending(s)
    ensures |set x | x in s| == |s|
  {
    if s != [] {
      var tail := s[1..];
      assert StrictlyAscending(tail);
      StrictlyAscendingCard(tail);
      var all, rest := set x | x in s, set x | x in tail;
      assert all == rest + {s[0]} by {
        assert s == [s[0]] + tail;
      }
      assert s[0] !in rest by {
        forall j | 0 <= j < |tail| ensures tail[j] != s[0] {
          assert tail[j] == s[j + 1];
        }
      }
    }
  }

  /** The domain length (the row or column count of the grid) is the number of
      distinct values on that axis. */
  lemma DomainLength(values: seq<Category>)
    ensures |DeriveDomain(values)| == |set x | x in values|
  {
    var d := DeriveDomain(values);
    StrictlyAscendingCard(d);
    assert (set x | x in d) == (set x | x in values);
  }
}

=== FILE: categories.dfy ===
/**
 The values the heat map is built from: categories, the two-dimensional key of a datum,
 and the datum itself as the crossfilter group hands it to the chart.
 */
module Categories {

  datatype Option<+T> = None | Some(value: T)

  /** A category on either axis. The chart sorts categories with d3.ascending and
      de-duplicates them with `!=`, which is only sound for primitive, totally ordered
      values; the model uses integers. */
  type Category = int

  /** `d.key`, the pair [column, row]. The key accessor is `d.key[0]` (heatmap.js:81-83),
      the value accessor is taken to be `d.key[1]`, so the composite bind key
      `key + '\0' + value` and the filter pair are this same value. */
  datatype Coord = Coord(col: Category, row: Category)

  /** One datum: its key and the value the colour accessor extracts (the colour metric,
      also the default title text). */
  datatype Datum = Datum(key: Coord, metric: int)

  /** The crossfilter group gives every datum its own key. */
  predicate DistinctKeys(data: seq<Datum>)
  {
    forall i, j :: 0 <= i < j < |data| ==> data[i].key != data[j].key
  }

  /** The composite keys of a dataset, the identities the cell join is keyed by. */
  function DataKeys(data: seq<Datum>): (r: set<Coord>)
    ensures forall i :: 0 <= i < |data| ==> data[i].key in r
  {
    set i | 0 <= i < |data| :: data[i].key
  }

  /** Extending a dataset by one datum adds exactly that datum's key. */
  lemma DataKeysSnoc(data: seq<Datum>, i: nat)
    requires i < |data|
    ensures DataKeys(data[..i + 1]) == DataKeys(data[..i]) + {data[i].key}
  {
    var front, next := data[..i], data[..i + 1];
    assert forall j :: 0 <= j < i ==> next[j] == front[j];
    assert next[i] == data[i];
  }

  /** With distinct keys, a dataset has exactly one key per datum. */
  lemma {:induction false} DataKeysCount(data: seq<Datum>)
    requires DistinctKeys(data)
    ensures |DataKeys(data)| == |data|
  {
    if data != [] {
      var n := |data| - 1;
      DataKeysCount(data[..n]);
      DataKeysSnoc(data, n);
      assert data[..n + 1] == data;
    }
  }
}

=== FILE: filter_rules.dfy ===
/**
 The filter-interaction rules of the heat map as functions on the filter set: the toggle
 behind `_chart.filter(f)` (heatmap.js:69-76), the cell click (heatmap.js:40-46) and the
 "select the missing ones, or clear all" rule of a column or row label click
 (heatmap.js:48-66, 78-79).
 */
module FilterRules {
  import opened Categories

  /** The axis a label click works on: `filterAxis(0, v)` for a column,
      `filterAxis(1, v)` for a row. */
  datatype Axis = Column | Row

  /** `d.key[axis]`. */
  function CoordOn(c: Coord, axis: Axis): (r: Category)
    ensures axis == Column ==> r == c.col
    ensures axis == Row ==> r == c.row
  {
    match axis
    case Column => c.col
    case Row => c.row
  }

  /** The base chart's `_filter(f)` on a two-dimensional filter: removes `c` when it is
      present, adds it otherwise. */
  function Toggle(filters: set<Coord>, c: Coord): (r: set<Coord>)
    ensures c in r <==> c !in filters
    ensures forall o :: o != c ==> (o in r <==> o in filters)
  {
    if c in filters then filters - {c} else filters + {c}
  }

  /** The result of toggling every pair of `targets` once, in any order. */
  function ToggleEach(filters: set<Coord>, targets: set<Coord>): (r: set<Coord>)
    ensures forall c :: c in r <==> (c in filters <==> c !in targets)
  {
    (filters - targets) + (targets - filters)
  }

  /** Toggling the targets one at a time: one more target is one more toggle. */
  lemma ToggleEachStep(filters: set<Coord>, done: set<Coord>, c: Coord)
    requires c !in done
    ensures ToggleEach(filters, done + {c}) == Toggle(ToggleEach(filters, done), c)
  {
  }

  /** The cells of a column or row: the rendered pairs whose coordinate on `axis` is `v`
      (`cellsOnAxis`). */
  function OnAxis(rendered: set<Coord>, axis: Axis, v: Category): (r: set<Coord>)
    ensures r <= rendered
    ensures forall c :: c in r ==> CoordOn(c, axis) == v
    ensures forall c :: c in rendered && CoordOn(c, axis) == v ==> c in r
  {
    set c | c in rendered && CoordOn(c, axis) == v
  }

  /** A set of cells has no unfiltered member exactly when all of it is filtered. */
  lemma NoneMissing(cells: set<Coord>, filters: set<Coord>)
    ensures cells - filters == {} <==> cells <= filters
  {
    if cells - filters == {} {
      forall c | c in cells ensures c in filters {
        assert c !in cells - filters;
      }
    }
  }

  /** The pairs a label click toggles, chosen from a snapshot taken before any toggle:
      the unfiltered cells on the axis when there are any, else all cells on it. */
  function AxisTargets(rendered: set<Coord>, filters: set<Coord>, axis: Axis, v: Category): (r: set<Coord>)
    ensures r <= OnAxis(rendered, axis, v)
    ensures OnAxis(rendered, axis, v) - filters != {} ==> r == OnAxis(rendered, axis, v) - filters
    ensures OnAxis(rendered, axis, v) <= filters ==> r == OnAxis(rendered, axis, v)
    ensures forall c :: c in r ==> (c in filters <==> OnAxis(rendered, axis, v) <= filters)
  {
    var unfiltered := OnAxis(rendered, axis, v) - filters;
    NoneMissing(OnAxis(rendered, axis, v), filters);
    if unfiltered == {} then OnAxis(rendered, axis, v) else unfiltered
  }

  /** The filter set after a label click on value `v` of `axis`. A column or row that is
      fully filtered is cleared; any other gets all of its cells filtered; pairs off that
      column or row, and pairs that are not rendered, keep their membership. */
  function AxisClick(rendered: set<Coord>, filters: set<Coord>, axis: Axis, v: Category): (r: set<Coord>)
    ensures var cells := OnAxis(rendered, axis, v);
            r == if cells <= filters then filters - cells else filters + cells
    ensures forall c :: c in OnAxis(rendered, axis, v) ==> (c in r <==> !(OnAxis(rendered, axis, v) <= filters))
    ensures forall c :: CoordOn(c, axis) != v ==> (c in r <==> c in filters)
    ensures forall c :: c !in rendered ==> (c in r <==> c in filters)
  {
    ToggleEach(filters, AxisTargets(rendered, filters, axis, v))
  }

  /** Clicking the same cell twice restores the filter set. */
  lemma ToggleTwice(filters: set<Coord>, c: Coord)
    ensures Toggle(Toggle(filters, c), c) == filters
  {
    var once := Toggle(filters, c);
    forall o ensures o in Toggle(once, c) <==> o in filters {
      if o == c {
        assert c in once <==> c !in filters;
      }
    }
  }

  /** After a label click, a non-empty column or row is either fully filtered or has no
      filtered cell. */
  lemma AxisClickAllOrNothing(rendered: set<Coord>, filters: set<Coord>, axis: Axis, v: Category)
    ensures var cells := OnAxis(rendered, axis, v);
            var r := AxisClick(rendered, filters, axis, v);
            cells <= r || cells * r == {}
  {
  }

  /** Two label clicks on the same column or row: a fully filtered one (an empty one
      included, as a stale label's may be) comes back exactly as it was; any other one ends
      with none of its cells filtered. */
  lemma AxisClickTwice(rendered: set<Coord>, filters: set<Coord>, axis: Axis, v: Category)
    ensures var cells := OnAxis(rendered, axis, v);
            var twice := AxisClick(rendered, AxisClick(rendered, filters, axis, v), axis, v);
            twice == if cells <= filters then filters else filters - cells
  {
    var cells := OnAxis(rendered, axis, v);
    var once := AxisClick(rendered, filters, axis, v);
    if cells == {} {
      assert once == filters;
    } else if cells <= filters {
      assert once == filters - cells;
      var c :| c in cells;
      assert !(cells <= once) by { assert c !in once; }
      assert once + cells == filters;
    } else {
      assert once == filters + cells;
      assert cells <= once;
    }
  }
}

=== FILE: grid.dfy ===
/**
 The grid layout and the cell reconciliation of `doRedraw` (heatmap.js:122-194) as
 functions: cell size, the band positions of the two axes, the cell a datum ends up as,
 the keyed enter/update/exit over the whole table, the label join, and the selection pass.
 */
module Grid {
  import opened Categories
  import opened AxisDomain
  import opened FilterRules

  /** The default `rx`/`ry` of a cell (heatmap.js:27). */
  const DefaultBorderRadius: real := 6.75

  /** A pixel extent: `Math.floor(extent / count)`, or the non-finite value JavaScript
      gives when the count is zero. */
  datatype Size = Px(n: int) | NonFinite

  /** The band d3's `rangeRoundBands` assigns to the `index`-th of `count` domain values
      over the range [start, stop]; the pixel offset itself is d3's. */
  datatype Band = Band(index: nat, count: nat, start: int, stop: int)

  /** A coordinate: a fixed pixel value, the start of a band, or the middle of a band
      (band start plus half a cell). */
  datatype Pos = At(px: int) | BandStart(band: Band) | BandMiddle(band: Band, cell: Size)

  /** A cell's fill: the initial white, or the colour scale applied to a metric. */
  datatype Fill = White | Colour(metric: int)

  /** The classes the selection pass leaves on a cell: none (reset), "selected" or
      "deselected". */
  datatype Mark = Neutral | Selected | Deselected

  /** The geometry of a cell's rectangle, absent until the first update. */
  datatype Box = Unplaced | Placed(x: Pos, y: Pos, rx: real, ry: real, width: Size, height: Size)

  /** A rendered `g.box-group`: its bound datum, its title text, and its rectangle. */
  datatype Cell = Cell(datum: Datum, title: int, fill: Fill, box: Box, mark: Mark)

  /** An axis label: the text it shows, its position, and the datum d3 has bound to it
      (the value its click listener receives). */
  datatype Label = Label(text: Category, x: Pos, y: Pos, bound: Category)

  /** What one redraw computes before touching the table: both domains, the effective
      drawing area and the border radii. */
  datatype Layout = Layout(cols: seq<Category>, rows: seq<Category>, width: int, height: int, rx: real, ry: real)

  function Max(a: nat, b: nat): nat
  {
    if a < b then b else a
  }

  /** `Math.floor(extent / count)`. Dafny's `/` rounds down for a positive divisor. */
  function CellSize(extent: int, count: nat): (r: Size)
    ensures r.NonFinite? <==> count == 0
    ensures r.Px? ==> r.n * count <= extent < (r.n + 1) * count
  {
    if count == 0 then NonFinite
    else
      var q := extent / count;
      assert extent == q * count + extent % count;
      Px(q)
  }

  /** Columns are laid over [0, width], left to right: the band of `v` is its index in
      the column domain. */
  function ColBand(g: Layout, v: Category): (r: Band)
    ensures r.count == |g.cols| && r.start == 0 && r.stop == g.width
    ensures r.index < r.count <==> v in g.cols
    ensures r.index < r.count ==> g.cols[r.index] == v
  {
    Band(IndexOf(g.cols, v), |g.cols|, 0, g.width)
  }

  /** Rows are laid over [height, 0]: the first row of the domain is drawn at the bottom. */
  function RowBand(g: Layout, v: Category): (r: Band)
    ensures r.count == |g.rows| && r.start == g.height && r.stop == 0
    ensures r.index < r.count <==> v in g.rows
    ensures r.index < r.count ==> g.rows[r.index] == v
  {
    Band(IndexOf(g.rows, v), |g.rows|, g.height, 0)
  }

  /** `boxWidth`: the floor of the width over the column count. */
  function BoxWidth(g: Layout): (r: Size)
    ensures r.NonFinite? <==> |g.cols| == 0
    ensures r.Px? ==> r.n * |g.cols| <= g.width < (r.n + 1) * |g.cols|
  {
    CellSize(g.width, |g.cols|)
  }

  /** `boxHeight`: the floor of the height over the row count. */
  function BoxHeight(g: Layout): (r: Size)
    ensures r.NonFinite? <==> |g.rows| == 0
    ensures r.Px? ==> r.n * |g.rows| <= g.height < (r.n + 1) * |g.rows|
  {
    CellSize(g.height, |g.rows|)
  }

  /** The attributes the update transition gives the rectangle of the cell keyed `c`: the
      start of its column's band and of its row's band, the configured radii, and the cell
      size, which is finite exactly when the axis has a value. */
  function Placement(g: Layout, c: Coord): (r: Box)
    ensures r.Placed? && r.x.BandStart? && r.y.BandStart?
    ensures c.col in g.cols ==> r.x.band.index < |g.cols| && g.cols[r.x.band.index] == c.col
    ensures c.row in g.rows ==> r.y.band.index < |g.rows| && g.rows[r.y.band.index] == c.row
    ensures r.x.band == ColBand(g, c.col) && r.y.band == RowBand(g, c.row)
    ensures r.rx == g.rx && r.ry == g.ry
    ensures r.width == BoxWidth(g) && r.height == BoxHeight(g)
    ensures r.width.Px? <==> |g.cols| > 0
    ensures r.height.Px? <==> |g.rows| > 0
  {
    Placed(BandStart(ColBand(g, c.col)), BandStart(RowBand(g, c.row)), g.rx, g.ry, BoxWidth(g), BoxHeight(g))
  }

  /** A freshly entered cell: white, unplaced, unmarked, titled with the colour metric. */
  function Entered(d: Datum): (c: Cell)
    ensures c.fill == White && c.datum == d
  {
    Cell(d, d.metric, White, Unplaced, Neutral)
  }

  /** The data join: an existing cell is rebound to the new datum, a missing one entered. */
  function Joined(prior: map<Coord, Cell>, d: Datum): (r: Cell)
    ensures r.datum == d
    ensures d.key in prior ==> r.(datum := prior[d.key].datum) == prior[d.key]
    ensures d.key !in prior ==> r.fill == White && r.box == Unplaced && r.title == d.metric
  {
    if d.key in prior then prior[d.key].(datum := d) else Entered(d)
  }

  /** The update: position, radii, fill and size; the datum, the title and the mark are
      left as they were. */
  function Updated(c: Cell, g: Layout): (r: Cell)
    ensures r.datum == c.datum && r.title == c.title && r.mark == c.mark
    ensures r.fill == Colour(c.datum.metric) && r.box == Placement(g, c.datum.key)
  {
    c.(fill := Colour(c.datum.metric), box := Placement(g, c.datum.key))
  }

  /** `isSelectedNode` under the selection pass: reset when no filter is active. */
  function MarkFor(filters: set<Coord>, k: Coord): (r: Mark)
    ensures r == Selected <==> k in filters
    ensures r == Deselected <==> filters != {} && k !in filters
    ensures r == Neutral <==> filters == {}
  {
    if filters == {} then Neutral else if k in filters then Selected else Deselected
  }

  /** A cell after the selection pass: only its mark changes. */
  function Marked(c: Cell, filters: set<Coord>): (r: Cell)
    ensures r.(mark := c.mark) == c
    ensures r.mark == MarkFor(filters, c.datum.key)
  {
    c.(mark := MarkFor(filters, c.datum.key))
  }

  /** The cell a datum is rendered as after a redraw. */
  function CellFor(prior: map<Coord, Cell>, d: Datum, g: Layout, filters: set<Coord>): Cell
  {
    Marked(Updated(Joined(prior, d), g), filters)
  }

  /** The table after the data join, one datum at a time: every datum's cell rebound or
      entered; cells of departed data still present. */
  function JoinAll(prior: map<Coord, Cell>, data: seq<Datum>): (r: map<Coord, Cell>)
    ensures r.Keys == prior.Keys + DataKeys(data)
    decreases |data|
  {
    if data == [] then prior
    else
      var n := |data| - 1;
      DataKeysSnoc(data, n);
      assert data[..n + 1] == data;
      JoinAll(prior, data[..n])[data[n].key := Joined(prior, data[n])]
  }

  /** The entries of the joined table: a datum's entry is its joined cell; a prior cell
      whose key is not in the data is untouched. */
  lemma {:induction false} JoinAllEntries(prior: map<Coord, Cell>, data: seq<Datum>)
    requires DistinctKeys(data)
    ensures forall i :: 0 <= i < |data| ==> JoinAll(prior, data)[data[i].key] == Joined(prior, data[i])
    ensures forall k :: k in prior && k !in DataKeys(data) ==> JoinAll(prior, data)[k] == prior[k]
  {
    if data != [] {
      var n := |data| - 1;
      var front := data[..n];
      assert DistinctKeys(front);
      JoinAllEntries(prior, front);
      assert data[..n + 1] == data;
      var m := JoinAll(prior, front);
      var r := m[data[n].key := Joined(prior, data[n])];
      assert JoinAll(prior, data) == r;
      forall i | 0 <= i < |data| ensures r[data[i].key] == Joined(prior, data[i]) {
        if i < n {
          assert front[i] == data[i];
          assert data[i].key != data[n].key;
        }
      }
      forall k | k in prior && k !in DataKeys(data) ensures r[k] == prior[k] {
        DataKeysSnoc(data, n);
        assert k != data[n].key && k !in DataKeys(front);
      }
    }
  }

  /** One step of the join: the next datum finds its prior cell (if any) untouched by the
      data before it, so joining it against the running table joins it against `prior`. */
  lemma JoinAllNext(prior: map<Coord, Cell>, data: seq<Datum>, i: nat)
    requires DistinctKeys(data) && i < |data|
    ensures var m, k := JoinAll(prior, data[..i]), data[i].key;
            && (k in m <==> k in prior)
            && (k in m ==> m[k] == prior[k])
            && JoinAll(prior, data[..i + 1]) == m[k := Joined(prior, data[i])]
  {
    var front := data[..i];
    assert DistinctKeys(front);
    JoinAllEntries(prior, front);
    assert data[i].key !in DataKeys(front);
    assert data[..i + 1][..i] == front;
  }

  /** Part-way through the join: the first `i` data joined into `m`, the keys among them
      that had no cell recorded as `entered`. */
  ghost predicate JoinedUpTo(prior: map<Coord, Cell>, data: seq<Datum>, i: nat, m: map<Coord, Cell>, entered: set<Coord>)
    requires i <= |data|
  {
    m == JoinAll(prior, data[..i]) && entered == DataKeys(data[..i]) - prior.Keys
  }

  /** Joining the next datum against the running table: its cell, if the table has one, is
      rebound; otherwise a new cell is entered and its key recorded. */
  lemma JoinedUpToNext(prior: map<Coord, Cell>, data: seq<Datum>, i: nat, m: map<Coord, Cell>, entered: set<Coord>)
    requires DistinctKeys(data) && i < |data| && JoinedUpTo(prior, data, i, m, entered)
    ensures var d := data[i];
            JoinedUpTo(prior, data, i + 1,
                       m[d.key := if d.key in m then m[d.key].(datum := d) else Entered(d)],
                       if d.key in m then entered else entered + {d.key})
  {
    DataKeysSnoc(data, i);
    JoinAllNext(prior, data, i);
  }

  /** A cell entered by the join is white until the update colours it, is bound to its
      datum, and has no geometry yet. */
  lemma JoinEntersWhite(prior: map<Coord, Cell>, data: seq<Datum>, k: Coord)
    requires DistinctKeys(data) && k in DataKeys(data) && k !in prior
    ensures var m := JoinAll(prior, data);
            k in m && m[k].fill == White && m[k].datum.key == k && m[k].box == Unplaced
  {
    var i :| 0 <= i < |data| && data[i].key == k;
    JoinAllEntries(prior, data);
  }

  /** The join keeps every cell keyed by its own datum's key. */
  lemma JoinAllKeyed(prior: map<Coord, Cell>, data: seq<Datum>)
    requires DistinctKeys(data)
    requires forall k :: k in prior ==> prior[k].datum.key == k
    ensures var m := JoinAll(prior, data);
            forall k :: k in m ==> m[k].datum.key == k
  {
    var m := JoinAll(prior, data);
    JoinAllEntries(prior, data);
    forall k | k in m ensures m[k].datum.key == k {
      if k in DataKeys(data) {
        var i :| 0 <= i < |data| && data[i].key == k;
      }
    }
  }

  /** The table after the update transition of the cells keyed by `keys`: the same keys,
      those cells updated, the others untouched. */
  function UpdateAll(m: map<Coord, Cell>, keys: set<Coord>, g: Layout): (r: map<Coord, Cell>)
    ensures r.Keys == m.Keys
    ensures forall k :: k in m && k in keys ==> r[k] == Updated(m[k], g)
    ensures forall k :: k in m && k !in keys ==> r[k] == m[k]
  {
    map k | k in m :: if k in keys then Updated(m[k], g) else m[k]
  }

  /** The table after `exit().remove()`: the cells keyed outside `keys` are gone and the
      others are untouched. */
  function ExitAll(m: map<Coord, Cell>, keys: set<Coord>): (r: map<Coord, Cell>)
    ensures r.Keys == m.Keys * keys
    ensures forall k :: k in r ==> r[k] == m[k]
  {
    map k | k in m && k in keys :: m[k]
  }

  /** The table after the selection pass: the same keys, each cell marked from the filter
      set and otherwise unchanged. */
  function MarkAll(m: map<Coord, Cell>, filters: set<Coord>): (r: map<Coord, Cell>)
    ensures r.Keys == m.Keys
    ensures forall k :: k in m ==> r[k] == Marked(m[k], filters)
  {
    map k | k in m :: Marked(m[k], filters)
  }

  /** The cell table after a redraw over `data`, starting from `prior`: the join, the
      update, the exit and the selection pass, in the order `doRedraw` runs them. */
  function Redrawn(prior: map<Coord, Cell>, data: seq<Datum>, g: Layout, filters: set<Coord>): (r: map<Coord, Cell>)
    requires DistinctKeys(data)
    ensures r.Keys <= DataKeys(data)
    ensures forall k :: k in r ==> r[k].mark == MarkFor(filters, r[k].datum.key)
  {
    MarkAll(ExitAll(UpdateAll(JoinAll(prior, data), DataKeys(data), g), DataKeys(data)), filters)
  }

  /** A redraw leaves exactly the data's keys in the table: every datum has a cell and
      every cell of departed data is gone. */
  lemma RedrawnKeys(prior: map<Coord, Cell>, data: seq<Datum>, g: Layout, filters: set<Coord>)
    requires DistinctKeys(data)
    ensures Redrawn(prior, data, g, filters).Keys == DataKeys(data)
  {
    JoinAllEntries(prior, data);
  }

  /** The cell a datum ends up as after a redraw. */
  lemma RedrawnAt(prior: map<Coord, Cell>, data: seq<Datum>, g: Layout, filters: set<Coord>, i: nat)
    requires DistinctKeys(data) && i < |data|
    ensures var r := Redrawn(prior, data, g, filters);
            data[i].key in r && r[data[i].key] == CellFor(prior, data[i], g, filters)
  {
    JoinAllEntries(prior, data);
    assert data[i].key in DataKeys(data);
  }

  /** What a redraw does to each cell: the table holds exactly the data's keys, each cell
      bound to its own datum and coloured and placed from it; a cell that existed keeps
      its title, a new one is titled with its metric; and the mark follows the filter set. */
  lemma RedrawnCell(prior: map<Coord, Cell>, data: seq<Datum>, g: Layout, filters: set<Coord>, i: nat)
    requires DistinctKeys(data) && i < |data|
    ensures var r := Redrawn(prior, data, g, filters);
            var d := data[i];
            && d.key in r
            && r[d.key].datum == d
            && r[d.key].title == (if d.key in prior then prior[d.key].title else d.metric)
            && r[d.key].fill == Colour(d.metric)
            && r[d.key].box == Placed(BandStart(Band(IndexOf(g.cols, d.key.col), |g.cols|, 0, g.width)),
                                      BandStart(Band(IndexOf(g.rows, d.key.row), |g.rows|, g.height, 0)),
                                      g.rx, g.ry, CellSize(g.width, |g.cols|), CellSize(g.height, |g.rows|))
            && (filters == {} ==> r[d.key].mark == Neutral)
            && (filters != {} ==> (r[d.key].mark == Selected <==> d.key in filters))
            && (filters != {} ==> (r[d.key].mark == Deselected <==> d.key !in filters))
  {
    RedrawnAt(prior, data, g, filters, i);
  }

  /** Every cell of a redrawn table is keyed by its own datum's key. */
  lemma RedrawnKeyed(prior: map<Coord, Cell>, data: seq<Datum>, g: Layout, filters: set<Coord>)
    requires DistinctKeys(data)
    ensures var r := Redrawn(prior, data, g, filters);
            forall k :: k in r ==> r[k].datum.key == k
  {
    var r := Redrawn(prior, data, g, filters);
    RedrawnKeys(prior, data, g, filters);
    forall k | k in r ensures r[k].datum.key == k {
      var i :| 0 <= i < |data| && data[i].key == k;
      RedrawnAt(prior, data, g, filters, i);
    }
  }

  /** A table that a redraw reproduces: it holds exactly the data's keys and each cell is
      what a redraw from it would make of its datum. */
  ghost predicate Settled(m: map<Coord, Cell>, data: seq<Datum>, g: Layout, filters: set<Coord>)
  {
    && m.Keys == DataKeys(data)
    && forall i :: 0 <= i < |data| ==> m[data[i].key] == CellFor(m, data[i], g, filters)
  }

  /** A redraw leaves a settled table as it is. */
  lemma SettledFixpoint(m: map<Coord, Cell>, data: seq<Datum>, g: Layout, filters: set<Coord>)
    requires DistinctKeys(data) && Settled(m, data, g, filters)
    ensures Redrawn(m, data, g, filters) == m
  {
    var r := Redrawn(m, data, g, filters);
    RedrawnKeys(m, data, g, filters);
    forall k | k in r ensures r[k] == m[k] {
      var i :| 0 <= i < |data| && data[i].key == k;
      RedrawnAt(m, data, g, filters, i);
    }
  }

  /** A redrawn table is settled. */
  lemma RedrawnSettled(prior: map<Coord, Cell>, data: seq<Datum>, g: Layout, filters: set<Coord>)
    requires DistinctKeys(data)
    ensures Settled(Redrawn(prior, data, g, filters), data, g, filters)
  {
    var once := Redrawn(prior, data, g, filters);
    RedrawnKeys(prior, data, g, filters);
    forall i | 0 <= i < |data| ensures once[data[i].key] == CellFor(once, data[i], g, filters) {
      RedrawnAt(prior, data, g, filters, i);
    }
  }

  /** Redrawing twice with the same data, layout and filter set: the second redraw
      enters and removes nothing and leaves the table as the first one left it. */
  lemma RedrawIdempotent(prior: map<Coord, Cell>, data: seq<Datum>, g: Layout, filters: set<Coord>)
    requires DistinctKeys(data)
    ensures var once := Redrawn(prior, data, g, filters);
            && DataKeys(data) - once.Keys == {}
            && once.Keys - DataKeys(data) == {}
            && Redrawn(once, data, g, filters) == once
  {
    var once := Redrawn(prior, data, g, filters);
    RedrawnSettled(prior, data, g, filters);
    SettledFixpoint(once, data, g, filters);
  }

  /** The values along one axis of a layout. */
  function AxisValues(g: Layout, axis: Axis): seq<Category>
  {
    match axis
    case Column => g.cols
    case Row => g.rows
  }

  /** A label created on enter: a column label centred under its column at the bottom
      edge, a row label at the left edge, centred on its row. */
  function NewLabel(g: Layout, axis: Axis, v: Category): (r: Label)
    ensures r.text == v && r.bound == v
    ensures axis == Column ==> r.x == BandMiddle(ColBand(g, v), BoxWidth(g)) && r.y == At(g.height)
    ensures axis == Row ==> r.x == At(0) && r.y == BandMiddle(RowBand(g, v), BoxHeight(g))
  {
    match axis
    case Column => Label(v, BandMiddle(ColBand(g, v), BoxWidth(g)), At(g.height), v)
    case Row => Label(v, At(0), BandMiddle(RowBand(g, v), BoxHeight(g)), v)
  }

  /** The label join by index: existing labels are rebound to the domain value at their
      index but keep their text and position; labels for the indices past the old end
      are appended; none is removed. */
  function Relabel(labels: seq<Label>, g: Layout, axis: Axis): (r: seq<Label>)
    ensures |r| == Max(|labels|, |AxisValues(g, axis)|)
    ensures forall i :: 0 <= i < |labels| ==>
              r[i].text == labels[i].text && r[i].x == labels[i].x && r[i].y == labels[i].y
    ensures forall i :: 0 <= i < |r| && i < |AxisValues(g, axis)| ==> r[i].bound == AxisValues(g, axis)[i]
    ensures forall i :: |labels| <= i < |r| ==> r[i] == NewLabel(g, axis, AxisValues(g, axis)[i])
    ensures forall i :: |AxisValues(g, axis)| <= i < |labels| ==> r[i] == labels[i]
  {
    var dom := AxisValues(g, axis);
    var n := Max(|labels|, |dom|);
    seq(n, i requires 0 <= i < n =>
      if i < |labels| then labels[i].(bound := if i < |dom| then dom[i] else labels[i].bound)
      else NewLabel(g, axis, dom[i]))
  }

  /** A label list whose every label is bound to the value it shows. */
  ghost predicate InSync(labels: seq<Label>)
  {
    forall i :: 0 <= i < |labels| ==> labels[i].text == labels[i].bound
  }

  /** Labels built from nothing show and dispatch exactly the domain. */
  lemma LabelsFromScratch(g: Layout, axis: Axis)
    ensures var r := Relabel([], g, axis);
            |r| == |AxisValues(g, axis)| && InSync(r)
            && forall i :: 0 <= i < |r| ==> r[i].text == AxisValues(g, axis)[i]
  {
    var r := Relabel([], g, axis);
    forall i | 0 <= i < |r| ensures r[i].text == r[i].bound == AxisValues(g, axis)[i] {
      assert r[i] == NewLabel(g, axis, AxisValues(g, axis)[i]);
    }
  }

  /** Labels that were in sync stay in sync exactly when the new domain shows the old
      texts at their old indices; otherwise some label shows one value and its click
      filters another. */
  lemma RelabelInSync(labels: seq<Label>, g: Layout, axis: Axis)
    requires InSync(labels)
    ensures InSync(Relabel(labels, g, axis)) <==>
            forall i :: 0 <= i < |labels| && i < |AxisValues(g, axis)| ==> labels[i].text == AxisValues(g, axis)[i]
  {
    var r := Relabel(labels, g, axis);
    var dom := AxisValues(g, axis);
    forall i | |labels| <= i < |r| ensures r[i].text == r[i].bound {
      assert r[i] == NewLabel(g, axis, dom[i]);
    }
  }

  /** Rejoining the same domain changes no label. */
  lemma {:induction false} RelabelStable(labels: seq<Label>, g: Layout, axis: Axis)
    ensures var once := Relabel(labels, g, axis);
            Relabel(once, g, axis) == once
  {
    var once := Relabel(labels, g, axis);
    var twice := Relabel(once, g, axis);
    forall i | 0 <= i < |once| ensures twice[i] == once[i] {
    }
  }
}

=== FILE: heatmap.dfy ===
/**
 The heat map chart object (heatmap.js:25-216): its closure fields, the rendered cell table
 and label lists it updates in place, the click handlers that mutate the shared filter set,
 and `doRender`/`doRedraw`.
 */
module HeatMapChart {
  import opened Categories
  import opened AxisDomain
  import opened FilterRules
  import opened Grid

  /** What the shared filter set has been asked to do, in order. */
  datatype Event = Toggled(pair: Coord) | Redraw(filters: set<Coord>)

  /** The filter set the base chart owns and the chart group's redraw channel, injected
      into the chart. `log` records the requests made of it. */
  class SharedFilter {
    var filters: set<Coord>
    ghost var log: seq<Event>

    constructor ()
      ensures filters == {} && log == []
    {
      filters := {};
      log := [];
    }

    /** `hasFilter(f)`. */
    function HasFilter(c: Coord): (r: bool)
      reads this
      ensures r <==> c in filters
      ensures r ==> filters != {}
    {
      c in filters
    }

    /** `hasFilter()`: is any filter active. */
    function HasAnyFilter(): (r: bool)
      reads this
      ensures r <==> filters != {}
      ensures forall c :: HasFilter(c) ==> r
    {
      filters != {}
    }

    /** `_filter(TwoDimensionalFilter(c))`: toggles the pair. */
    method ToggleFilter(c: Coord)
      modifies this
      ensures filters == Toggle(old(filters), c)
      ensures log == old(log) + [Toggled(c)]
    {
      filters := Toggle(filters, c);
      log := log + [Toggled(c)];
    }

    /** `dc.redrawAll(chartGroup)`: asks every chart of the group to redraw against the
        current filter set. */
    method RedrawAll()
      modifies this
      ensures filters == old(filters)
      ensures log == old(log) + [Redraw(filters)]
    {
      log := log + [Redraw(filters)];
    }
  }

  /** A run of log entries that toggles every pair of `pairs` exactly once. */
  ghost predicate ToggleRun(run: seq<Event>, pairs: set<Coord>)
  {
    && |run| == |pairs|
    && (forall i :: 0 <= i < |run| ==> run[i].Toggled? && run[i].pair in pairs)
    && (forall i, j :: 0 <= i < j < |run| ==> run[i] != run[j])
  }

  /** One more toggle of a pair not toggled yet extends the run. */
  lemma ToggleRunSnoc(run: seq<Event>, pairs: set<Coord>, c: Coord)
    requires ToggleRun(run, pairs) && c !in pairs
    ensures ToggleRun(run + [Toggled(c)], pairs + {c})
  {
    var next := run + [Toggled(c)];
    forall i, j | 0 <= i < j < |next| ensures next[i] != next[j] {
      if j == |run| {
        assert next[i].pair in pairs;
      }
    }
  }

  /** The requests one gesture appends to the log: one toggle per target pair, each
      pair once, then a single redraw that sees the final filter set. */
  ghost predicate GestureLog(before: seq<Event>, after: seq<Event>, targets: set<Coord>, final: set<Coord>)
  {
    && |before| < |after|
    && after[..|before|] == before
    && after[|after| - 1] == Redraw(final)
    && ToggleRun(after[|before|..|after| - 1], targets)
  }

  /** Part-way through toggling a set: `done` toggled once each, in some order, and logged
      after `log0`. */
  ghost predicate TogglesSoFar(before: set<Coord>, log0: seq<Event>, done: set<Coord>,
                               filters: set<Coord>, log: seq<Event>)
  {
    && filters == ToggleEach(before, done)
    && |log| >= |log0|
    && log[..|log0|] == log0
    && ToggleRun(log[|log0|..], done)
  }

  /** Toggling one more pair, not toggled yet, extends the progress. */
  lemma TogglesSoFarNext(before: set<Coord>, log0: seq<Event>, done: set<Coord>,
                         filters: set<Coord>, log: seq<Event>, c: Coord)
    requires TogglesSoFar(before, log0, done, filters, log) && c !in done
    ensures TogglesSoFar(before, log0, done + {c}, Toggle(filters, c), log + [Toggled(c)])
  {
    ToggleEachStep(before, done, c);
    ToggleRunSnoc(log[|log0|..], done, c);
    var next := log + [Toggled(c)];
    assert next[..|log0|] == log0;
    assert next[|log0|..] == log[|log0|..] + [Toggled(c)];
  }

  /** A run of toggles over `targets` followed by one redraw is such a gesture. */
  lemma GestureLogIntro(before: seq<Event>, mid: seq<Event>, targets: set<Coord>, final: set<Coord>)
    requires |before| <= |mid| && mid[..|before|] == before
    requires ToggleRun(mid[|before|..], targets)
    ensures GestureLog(before, mid + [Redraw(final)], targets, final)
  {
    var after := mid + [Redraw(final)];
    assert after[..|before|] == before;
    assert after[|before|..|after| - 1] == mid[|before|..];
  }

  /** What the `domain()` of a d3 ordinal scale always is: a list without repeats. */
  ghost predicate NoDuplicates(s: seq<Category>)
  {
    forall i, j :: 0 <= i < j < |s| ==> s[i] != s[j]
  }

  class HeatMap {
    const shared: SharedFilter
    /** `effectiveWidth()` and `effectiveHeight()` of the base chart. */
    const width: int
    const height: int
    /** `_chart.data()`: the crossfilter group's current entries. */
    var data: seq<Datum>
    /** `_rows` / `_cols`: the domain of an override scale; `None` when no override is
        set or the one set is falsy. */
    var rowsOverride: Option<seq<Category>>
    var colsOverride: Option<seq<Category>>
    var xRadius: real
    var yRadius: real
    /** The `g.box-group` elements, keyed by their composite key. */
    var cells: map<Coord, Cell>
    /** The text elements of `g.cols` and `g.rows`, in document order. */
    var colLabels: seq<Label>
    var rowLabels: seq<Label>
    /** The keys the last redraw entered and removed. */
    ghost var entered: set<Coord>
    ghost var exited: set<Coord>

    ghost predicate Valid()
      reads this`data, this`cells
    {
      && DistinctKeys(data)
      && (forall k :: k in cells ==> cells[k].datum.key == k)
    }

    /** An override stands for an ordinal scale, whose domain never repeats a value. */
    ghost predicate DistinctOverrides()
      reads this`rowsOverride, this`colsOverride
    {
      && (rowsOverride.Some? ==> NoDuplicates(rowsOverride.value))
      && (colsOverride.Some? ==> NoDuplicates(colsOverride.value))
    }

    constructor (shared: SharedFilter, width: int, height: int)
      ensures Valid() && DistinctOverrides()
      ensures this.shared == shared && this.width == width && this.height == height
      ensures data == [] && rowsOverride == None && colsOverride == None
      ensures xRadius == DefaultBorderRadius && yRadius == DefaultBorderRadius
      ensures cells == map[] && colLabels == [] && rowLabels == []
    {
      this.shared := shared;
      this.width := width;
      this.height := height;
      data := [];
      rowsOverride := None;
      colsOverride := None;
      xRadius := DefaultBorderRadius;
      yRadius := DefaultBorderRadius;
      cells := map[];
      colLabels := [];
      rowLabels := [];
      entered := {};
      exited := {};
    }

    /** The crossfilter group changing under the chart. */
    method SetData(ds: seq<Datum>)
      requires Valid() && DistinctKeys(ds)
      modifies this`data
      ensures Valid() && data == ds
    {
      data := ds;
    }

    /** No-argument `rows()`: the override when one is set, else the sorted distinct
        row values of the current data. */
    function Rows(): (r: seq<Category>)
      reads this`rowsOverride, this`data
      ensures rowsOverride.Some? ==> r == rowsOverride.value
      ensures rowsOverride.None? ==> StrictlyAscending(r)
      ensures rowsOverride.None? ==> forall v :: v in r <==> exists d :: d in data && d.key.row == v
    {
      if rowsOverride.Some? then rowsOverride.value
      else
        var values := RowValues(data);
        assert forall v :: v in values <==> exists d :: d in data && d.key.row == v by {
          forall v ensures v in values <==> exists d :: d in data && d.key.row == v {
            if v in values {
              var i :| 0 <= i < |values| && values[i] == v;
              assert data[i] in data;
            }
            if exists d :: d in data && d.key.row == v {
              var d :| d in data && d.key.row == v;
              var i :| 0 <= i < |data| && data[i] == d;
              assert values[i] == v;
            }
          }
        }
        DeriveDomain(values)
    }

    /** No-argument `cols()`: the override when one is set, else the sorted distinct
        column values of the current data. */
    function Cols(): (r: seq<Category>)
      reads this`colsOverride, this`data
      ensures colsOverride.Some? ==> r == colsOverride.value
      ensures colsOverride.None? ==> StrictlyAscending(r)
      ensures colsOverride.None? ==> forall v :: v in r <==> exists d :: d in data && d.key.col == v
    {
      if colsOverride.Some? then colsOverride.value
      else
        var values := ColValues(data);
        assert forall v :: v in values <==> exists d :: d in data && d.key.col == v by {
          forall v ensures v in values <==> exists d :: d in data && d.key.col == v {
            if v in values {
              var i :| 0 <= i < |values| && values[i] == v;
              assert data[i] in data;
            }
            if exists d :: d in data && d.key.col == v {
              var d :| d in data && d.key.col == v;
              var i :| 0 <= i < |data| && data[i] == d;
              assert values[i] == v;
            }
          }
        }
        DeriveDomain(values)
    }

    /** `rows(domain)`: stores the override and returns the chart. */
    method SetRows(o: Option<seq<Category>>) returns (chart: HeatMap)
      requires o.Some? ==> NoDuplicates(o.value)
      modifies this`rowsOverride
      ensures old(DistinctOverrides()) ==> DistinctOverrides()
      ensures chart == this && rowsOverride == o
      ensures o.Some? ==> Rows() == o.value
    {
      rowsOverride := o;
      chart := this;
    }

    /** `cols(domain)`: stores the override and returns the chart. */
    method SetCols(o: Option<seq<Category>>) returns (chart: HeatMap)
      requires o.Some? ==> NoDuplicates(o.value)
      modifies this`colsOverride
      ensures old(DistinctOverrides()) ==> DistinctOverrides()
      ensures chart == this && colsOverride == o
      ensures o.Some? ==> Cols() == o.value
    {
      colsOverride := o;
      chart := this;
    }

    /** `xBorderRadius([r])`: stores `r` when given, and returns the radius. */
    method XBorderRadius(r: Option<real>) returns (radius: real)
      modifies this`xRadius
      ensures xRadius == (if r.Some? then r.value else old(xRadius))
      ensures radius == xRadius
    {
      if r.Some? {
        xRadius := r.value;
      }
      radius := xRadius;
    }

    /** `yBorderRadius([r])`: stores `r` when given, and returns the radius. */
    method YBorderRadius(r: Option<real>) returns (radius: real)
      modifies this`yRadius
      ensures yRadius == (if r.Some? then r.value else old(yRadius))
      ensures radius == yRadius
    {
      if r.Some? {
        yRadius := r.value;
      }
      radius := yRadius;
    }

    /** The `filter` override: a pair toggles its two-dimensional filter; no pair leaves
        the set as it is (the base chart's getter). */
    method Filter(f: Option<Coord>)
      modifies shared
      ensures shared.filters == (if f.Some? then Toggle(old(shared.filters), f.value) else old(shared.filters))
      ensures shared.log == (if f.Some? then old(shared.log) + [Toggled(f.value)] else old(shared.log))
    {
      if f.Some? {
        shared.ToggleFilter(f.value);
      }
    }

    /** `isSelectedNode(d)`: the datum's pair is one of the active filters. */
    function IsSelectedNode(d: Datum): (r: bool)
      reads shared
      ensures r <==> d.key in shared.filters
    {
      shared.HasFilter(d.key)
    }

    /** A click on a cell toggles its pair, then asks for one redraw. */
    method BoxOnClick(d: Datum)
      modifies shared
      ensures shared.filters == Toggle(old(shared.filters), d.key)
      ensures GestureLog(old(shared.log), shared.log, {d.key}, shared.filters)
    {
      Filter(Some(d.key));
      shared.RedrawAll();
    }

    /** `filterAxis(axis, v)`: over the rendered cells whose coordinate on `axis` is `v`,
        toggles the unfiltered ones when there are any and all of them otherwise, the
        choice being made before the first toggle; then asks for one redraw. */
    method FilterAxis(axis: Axis, v: Category)
      requires Valid()
      modifies shared
      ensures shared.filters == AxisClick(cells.Keys, old(shared.filters), axis, v)
      ensures GestureLog(old(shared.log), shared.log, AxisTargets(cells.Keys, old(shared.filters), axis, v), shared.filters)
    {
      var onAxis := set k | k in cells && CoordOn(cells[k].datum.key, axis) == v :: cells[k].datum.key;
      assert onAxis == OnAxis(cells.Keys, axis, v);
      var unfiltered := set k | k in onAxis && !shared.HasFilter(k);
      assert unfiltered == OnAxis(cells.Keys, axis, v) - shared.filters;
      var targets := if unfiltered == {} then onAxis else unfiltered;
      assert targets == AxisTargets(cells.Keys, shared.filters, axis, v);
      ghost var log0 := shared.log;
      FilterEach(targets);
      GestureLogIntro(log0, shared.log, targets, shared.filters);
      shared.RedrawAll();
    }

    /** `cells.each(function (d) { _chart.filter(d.key); })`: toggles every pair of
        `targets` once. */
    method FilterEach(targets: set<Coord>)
      modifies shared
      ensures TogglesSoFar(old(shared.filters), old(shared.log), targets, shared.filters, shared.log)
    {
      ghost var before := shared.filters;
      ghost var log0 := shared.log;
      assert shared.log[..|log0|] == log0 && shared.log[|log0|..] == [];
      var todo := targets;
      while todo != {}
        invariant todo <= targets
        invariant TogglesSoFar(before, log0, targets - todo, shared.filters, shared.log)
        decreases todo
      {
        var c :| c in todo;
        TogglesSoFarNext(before, log0, targets - todo, shared.filters, shared.log, c);
        Filter(Some(c));
        assert targets - todo + {c} == targets - (todo - {c});
        todo := todo - {c};
      }
      assert targets - todo == targets;
    }

    /** `xAxisOnClick(v)`: the label click of column `v`. */
    method XAxisOnClick(v: Category)
      requires Valid()
      modifies shared
      ensures shared.filters == AxisClick(cells.Keys, old(shared.filters), Column, v)
      ensures GestureLog(old(shared.log), shared.log, AxisTargets(cells.Keys, old(shared.filters), Column, v), shared.filters)
    {
      FilterAxis(Column, v);
    }

    /** `yAxisOnClick(v)`: the label click of row `v`. */
    method YAxisOnClick(v: Category)
      requires Valid()
      modifies shared
      ensures shared.filters == AxisClick(cells.Keys, old(shared.filters), Row, v)
      ensures GestureLog(old(shared.log), shared.log, AxisTargets(cells.Keys, old(shared.filters), Row, v), shared.filters)
    {
      FilterAxis(Row, v);
    }

    /** The layout one redraw works with: both domains, the drawing area and the radii.
        Its domains never repeat a value, as long as the overrides do not. */
    function CurrentLayout(): (r: Layout)
      reads this`colsOverride, this`rowsOverride, this`data, this`xRadius, this`yRadius
      ensures r.cols == Cols() && r.rows == Rows()
      ensures r.width == width && r.height == height && r.rx == xRadius && r.ry == yRadius
      ensures DistinctOverrides() ==> NoDuplicates(r.cols) && NoDuplicates(r.rows)
    {
      Layout(Cols(), Rows(), width, height, xRadius, yRadius)
    }

    /** The data join and enter: every datum's existing cell is rebound to it; a datum
        without one gets a new white cell. Cells of departed data are not touched yet. */
    method Join()
      requires Valid()
      modifies this`cells, this`entered
      ensures Valid()
      ensures cells == JoinAll(old(cells), data)
      ensures cells.Keys == old(cells).Keys + DataKeys(data)
      ensures entered == DataKeys(data) - old(cells).Keys
      ensures forall k :: k in entered ==> cells[k].fill == White
    {
      ghost var prior := cells;
      entered := {};
      var i := 0;
      while i < |data|
        invariant 0 <= i <= |data|
        invariant JoinedUpTo(prior, data, i, cells, entered)
      {
        var d := data[i];
        JoinedUpToNext(prior, data, i, cells, entered);
        if d.key in cells {
          cells := cells[d.key := cells[d.key].(datum := d)];
        } else {
          cells := cells[d.key := Entered(d)];
          entered := entered + {d.key};
        }
        i := i + 1;
      }
      assert data[..i] == data;
      JoinAllEntries(prior, data);
      JoinAllKeyed(prior, data);
      forall k | k in entered ensures cells[k].fill == White {
        JoinEntersWhite(prior, data, k);
      }
    }

    /** The update transition, at its end state: every datum's cell gets its position,
        radii, fill and size. */
    method Update(g: Layout)
      requires Valid()
      modifies this`cells
      requires DataKeys(data) <= cells.Keys
      ensures Valid()
      ensures cells == UpdateAll(old(cells), DataKeys(data), g)
    {
      ghost var before := cells;
      var i := 0;
      while i < |data|
        invariant 0 <= i <= |data|
        invariant cells.Keys == before.Keys
        invariant forall k :: k in cells ==> cells[k] == if k in DataKeys(data[..i]) then Updated(before[k], g) else before[k]
      {
        var k := data[i].key;
        DataKeysSnoc(data, i);
        assert k !in DataKeys(data[..i]);
        cells := cells[k := Updated(cells[k], g)];
        i := i + 1;
      }
      assert data[..i] == data;
      assert cells == UpdateAll(before, DataKeys(data), g);
    }

    /** `exit().remove()`: drops the cells whose key is no longer in the data. */
    method Exit()
      requires Valid()
      modifies this`cells, this`exited
      ensures Valid()
      ensures cells == ExitAll(old(cells), DataKeys(data))
      ensures exited == old(cells).Keys - DataKeys(data)
    {
      var keys := DataKeys(data);
      exited := cells.Keys - keys;
      cells := map k | k in cells && k in keys :: cells[k];
    }

    /** The label join of one axis against `domain`, run on the current list. */
    static method JoinLabels(labels: seq<Label>, g: Layout, axis: Axis) returns (r: seq<Label>)
      ensures r == Relabel(labels, g, axis)
    {
      var dom := AxisValues(g, axis);
      ghost var target := Relabel(labels, g, axis);
      r := labels;
      var i := 0;
      var n := if |labels| < |dom| then |labels| else |dom|;
      while i < n
        invariant 0 <= i <= n
        invariant |r| == |labels|
        invariant forall j :: 0 <= j < |labels| ==> r[j] == if j < i then target[j] else labels[j]
      {
        r := r[i := r[i].(bound := dom[i])];
        i := i + 1;
      }
      assert r == target[..|labels|];
      while |r| < |dom|
        invariant |labels| <= |r| <= |target|
        invariant r == target[..|r|]
        decreases |dom| - |r|
      {
        assert target[|r|] == NewLabel(g, axis, dom[|r|]);
        assert target[..|r| + 1] == target[..|r|] + [target[|r|]];
        r := r + [NewLabel(g, axis, dom[|r|])];
      }
    }

    /** The selection pass: with a filter active, highlights the cells whose pair is in
        the set and fades the others; with none, resets every cell. */
    method SelectionPass()
      requires Valid()
      modifies this`cells
      ensures Valid()
      ensures cells == MarkAll(old(cells), shared.filters)
    {
      ghost var before := cells;
      var active := shared.HasAnyFilter();
      var todo := cells.Keys;
      while todo != {}
        invariant todo <= cells.Keys && cells.Keys == before.Keys
        invariant forall k :: k in cells ==> cells[k] == if k in todo then before[k] else Marked(before[k], shared.filters)
        decreases todo
      {
        var k :| k in todo;
        var c := cells[k];
        var mark := if !active then Neutral else if IsSelectedNode(c.datum) then Selected else Deselected;
        cells := cells[k := c.(mark := mark)];
        todo := todo - {k};
      }
      assert cells == MarkAll(before, shared.filters);
    }

    /** The keyed data join of `doRedraw`: enter, update and exit, at their end state. */
    method Reconcile(g: Layout)
      requires Valid()
      modifies this`cells, this`entered, this`exited
      ensures Valid()
      ensures cells == ExitAll(UpdateAll(JoinAll(old(cells), data), DataKeys(data), g), DataKeys(data))
      ensures entered == DataKeys(data) - old(cells).Keys
      ensures exited == old(cells).Keys - DataKeys(data)
    {
      ghost var prior := cells;
      Join();
      ghost var joined := cells;
      Update(g);
      ghost var updated := cells;
      assert updated == UpdateAll(joined, DataKeys(data), g);
      Exit();
    }

    /** The label joins of `doRedraw`, column labels first. */
    method AppendLabels(g: Layout)
      modifies this`colLabels, this`rowLabels
      ensures colLabels == Relabel(old(colLabels), g, Column)
      ensures rowLabels == Relabel(old(rowLabels), g, Row)
    {
      colLabels := JoinLabels(colLabels, g, Column);
      rowLabels := JoinLabels(rowLabels, g, Row);
    }

    /** `doRedraw`: re-derives the axes, joins the data to the cells (enter, update,
        exit), appends the new axis labels and runs the selection pass. */
    method DoRedraw()
      requires Valid()
      modifies this`cells, this`colLabels, this`rowLabels, this`entered, this`exited
      ensures Valid()
      ensures cells == Redrawn(old(cells), data, old(CurrentLayout()), shared.filters)
      ensures colLabels == Relabel(old(colLabels), old(CurrentLayout()), Column)
      ensures rowLabels == Relabel(old(rowLabels), old(CurrentLayout()), Row)
      ensures entered == DataKeys(data) - old(cells).Keys
      ensures exited == old(cells).Keys - DataKeys(data)
    {
      var g := CurrentLayout();
      ghost var prior := cells;
      Reconcile(g);
      ghost var kept := cells;
      AppendLabels(g);
      SelectionPass();
      assert cells == MarkAll(kept, shared.filters);
    }

    /** `doRender`: clears the drawing surface, then redraws from nothing. */
    method DoRender()
      requires Valid()
      modifies this`cells, this`colLabels, this`rowLabels, this`entered, this`exited
      ensures Valid()
      ensures cells == Redrawn(map[], data, old(CurrentLayout()), shared.filters)
      ensures colLabels == Relabel([], old(CurrentLayout()), Column)
      ensures rowLabels == Relabel([], old(CurrentLayout()), Row)
      ensures entered == DataKeys(data)
    {
      ResetSvg();
      DoRedraw();
    }

    /** `resetSvg()`: the drawing surface starts over with no cells and no labels. */
    method ResetSvg()
      modifies this`cells, this`colLabels, this`rowLabels
      ensures cells == map[] && colLabels == [] && rowLabels == []
    {
      cells := map[];
      colLabels := [];
      rowLabels := [];
    }
  }
}

=== FILE: scenario.dfy ===
/**
 A worked example: three data on two columns and two rows, with the columns "a", "b"
 written 1, 2 and the rows "x", "y" written 10, 20.
 */
module HeatMapScenario {
  import opened Categories
  import opened AxisDomain
  import opened FilterRules
  import opened Grid

  function Sample(): seq<Datum>
  {
    [Datum(Coord(1, 10), 1), Datum(Coord(2, 10), 2), Datum(Coord(1, 20), 3)]
  }

  /** The derived column domain is [a, b]. */
  lemma SampleCols()
    ensures DeriveDomain(ColValues(Sample())) == [1, 2]
  {
    var cols := ColValues(Sample());
    assert cols == [1, 2, 1];
    forall x ensures x in [1, 2] <==> x in cols {
      assert x in cols <==> x == cols[0] || x == cols[1] || x == cols[2];
    }
    DeriveDomainIsCanonical(cols, [1, 2]);
  }

  /** The derived row domain is [x, y]. */
  lemma SampleRows()
    ensures DeriveDomain(RowValues(Sample())) == [10, 20]
  {
    var rows := RowValues(Sample());
    assert rows == [10, 10, 20];
    forall x ensures x in [10, 20] <==> x in rows {
      assert x in rows <==> x == rows[0] || x == rows[1] || x == rows[2];
    }
    DeriveDomainIsCanonical(rows, [10, 20]);
  }

  /** The sample's composite keys are its three distinct pairs. */
  lemma SampleKeys()
    ensures DistinctKeys(Sample())
    ensures DataKeys(Sample()) == {Coord(1, 10), Coord(2, 10), Coord(1, 20)}
  {
    var data := Sample();
    var keys := {Coord(1, 10), Coord(2, 10), Coord(1, 20)};
    assert data[0].key == Coord(1, 10) && data[1].key == Coord(2, 10) && data[2].key == Coord(1, 20);
    forall k | k in DataKeys(data) ensures k in keys {
      var i :| 0 <= i < |data| && data[i].key == k;
    }
    forall k | k in keys ensures k in DataKeys(data) {
      if k == Coord(1, 10) {
        assert data[0].key == k;
      } else if k == Coord(2, 10) {
        assert data[1].key == k;
      } else {
        assert data[2].key == k;
      }
    }
  }

  /** A redraw of the sample renders three cells, whatever was there before. */
  lemma SampleCells(prior: map<Coord, Cell>, g: Layout, filters: set<Coord>)
    ensures DistinctKeys(Sample())
    ensures Redrawn(prior, Sample(), g, filters).Keys == {Coord(1, 10), Coord(2, 10), Coord(1, 20)}
  {
    SampleKeys();
    RedrawnKeys(prior, Sample(), g, filters);
  }

  /** Clicking the cell (a, x) filters it; a click on row x then filters only (b, x), the
      one unfiltered cell of that row, so both are filtered; a second click on row x,
      now fully filtered, clears both. */
  lemma SampleClicks()
    ensures var rendered := {Coord(1, 10), Coord(2, 10), Coord(1, 20)};
            var first := Toggle({}, Coord(1, 10));
            var second := AxisClick(rendered, first, Row, 10);
            && first == {Coord(1, 10)}
            && AxisTargets(rendered, first, Row, 10) == {Coord(2, 10)}
            && second == {Coord(1, 10), Coord(2, 10)}
            && AxisClick(rendered, second, Row, 10) == {}
  {
    var rendered := {Coord(1, 10), Coord(2, 10), Coord(1, 20)};
    var rowX := {Coord(1, 10), Coord(2, 10)};
    assert OnAxis(rendered, Row, 10) == rowX by {
      assert CoordOn(Coord(1, 20), Row) != 10;
    }
    var first := Toggle({}, Coord(1, 10));
    assert first == {Coord(1, 10)};
    assert Coord(2, 10) !in first;
    assert rowX - first == {Coord(2, 10)};
    var second := AxisClick(rendered, first, Row, 10);
    assert second == first + rowX;
    assert second == rowX;
    assert AxisClick(rendered, second, Row, 10) == rowX - rowX;
  }
}
